=== FILE: README.md ===
# Cleaning and monthly aggregation of air-quality and hospitalisation data

This project is a Dafny model of the transform stage of the air-quality and
health pipeline in `src/data/load_data.py`. The stage has two functions:

- `clean_data(df, date_col)` converts the date column to timestamps. It fills
  every missing cell of a numeric column with that column's mean. It then
  drops the rows that miss a value in any other non-numeric column.
- `aggregate_monthly(air, hosp, jp)` buckets the three cleaned tables by
  calendar month, labelled with the month's last day. Air-quality columns
  become monthly means named `air_<col>`. The two hospitalisation tables
  become monthly row counts (`hospitalizations_total`,
  `hospitalizations_jp`). The three series are outer-joined on the month and
  the gaps are filled with 0.

Modules:

- `Calendar` holds Gregorian month lengths, month keys and month-end labels.
- `Frames` holds cells, column dtypes, tables as values, and the `Frame`
  class for a DataFrame updated in place. It also defines column means and a
  generic order-preserving filter.
- `Cleaning` defines the pure specification `Clean`. The method
  `Cleaning.CleanData` is proved against it; like the source, it updates the
  caller's frame column by column in a loop.
- `Aggregation` models `aggregate_monthly` as functions with lemmas.
- `Pipeline` connects the two stages and gives a worked example.

Representation choices:

- A cell is `Missing` (NaN, None or NaT), `Num(real)`, `Text(string)` or
  `Stamp(date)`. Means use exact `real` arithmetic.
- Each column's dtype (`Numeric`, `Datetime`, `Other`) is an input, since
  pandas infers it when reading CSV files.
- `pd.to_datetime` on a cell that is neither missing nor already a timestamp
  is a parameter `parse`. It yields a date, NaT, or a failure.
- A failure in the source is an exception. In the model it is an `Err`
  result: `KeyError`, `ParseError`, `NotDatetimeIndex`, `NonNumericMean` or
  `AllNaTIndex`.

Five behaviours of `load_data.py` worth knowing:

- A missing date cell becomes NaT and is not an error. Its row is kept,
  because the date column is excluded from the `dropna` subset.
- A numeric column with no present value has a NaN mean. Nothing is filled
  and no error is raised.
- With pandas 2, `resample(...).mean()` raises on a text (object)
  air-quality column instead of silently dropping it. The model returns
  `NonNumericMean` in that case. Datetime and boolean air-quality columns
  are the exceptions listed under "Left out".
- pandas returns a table without rows from `resample` unchanged, without
  averaging anything. So an empty air-quality table aggregates whatever the
  dtypes of its other columns are.
- A table that has rows but no timestamp (every index cell NaT) cannot be
  resampled. pandas takes the bin edges from the least and the greatest
  timestamp, which are both NaT, and cannot build a month range from them.
  The model returns `AllNaTIndex` naming the index column. Rows with NaT
  among dated rows fall in no month.

## Model

| member | source | states |
|---|---|---|
| Cleaning.ToTimestamp | src/data/load_data.py:49 | a converted cell is a timestamp or NaT; missing cells and timestamps are kept as they are; any other cell fails exactly when it cannot be parsed, and a cell that parses to a date becomes that timestamp |
| Cleaning.ToDatetime | src/data/load_data.py:49 | on success every cell is its own conversion and the length is kept; on failure the error names the first cell that cannot be converted, and every earlier cell converts |
| Cleaning.ConvertDates | src/data/load_data.py:49 | a missing date column is a KeyError and any other failure a ParseError; on success the column is marked as timestamps, every row keeps its place, and each date cell is a timestamp or NaT |
| Cleaning.ColumnsPartition | src/data/load_data.py:52-53 | no column is both filled and used to drop rows; together they cover every column but the date column, and the date column never drops rows |
| Cleaning.FillNa | src/data/load_data.py:58 | present cells are kept and the length is kept; with a fill value every missing cell becomes that value and none is left missing; a NaN fill changes nothing |
| Cleaning.DropIncomplete | src/data/load_data.py:61 | no more rows than the input, each an input row with no missing value in the subset, and every such input row is kept |
| Cleaning.Clean | src/data/load_data.py:42-62 | a missing date column is a KeyError; on success the dtypes are the input's with the date column as timestamps, there are at most as many rows as in the input, and none misses a value in a non-numeric, non-date column |
| Cleaning.DatetimeColumnCleans | src/data/load_data.py:49 | a well-formed table whose date column is already a timestamp column always cleans without error |
| Cleaning.CleanData | src/data/load_data.py:42-62 | returns exactly `Clean` of the input frame; the caller's frame ends up with the date column converted and every numeric column filled with its own mean, or is untouched on an error, and stays well formed |
| Cleaning.PreparedWellFormed | src/data/load_data.py:49-58 | converting the dates and filling the numeric columns keeps the frame well formed |
| Cleaning.FillStep | src/data/load_data.py:56-58 | one loop turn: the mean of a column not yet filled is its mean over the converted table, so the filling order does not matter |
| Cleaning.PreparedRow | src/data/load_data.py:49-58 | row i of the caller's frame after the loop is input row i with its date converted, present values unchanged, missing numeric values replaced by the column mean, and the same completeness on the non-numeric columns |
| Cleaning.PreparedRows | src/data/load_data.py:49-58 | PreparedRow for every row, and the row count is kept |
| Cleaning.CleanRows | src/data/load_data.py:42-62 | the output rows are exactly the input rows complete on the non-numeric, non-date columns, in input order, at most as many as the input; the dtypes are the input's with the date column as timestamps; a missing numeric cell becomes the mean over all input rows, dropped ones included, and present values are unchanged |
| Cleaning.CleanFails | src/data/load_data.py:49 | clean_data fails exactly when the date column is absent (KeyError) or some date cell cannot be converted; the error then names the first such row and cell |
| Cleaning.CleanDropsNothingIff | src/data/load_data.py:53-61 | no row is dropped exactly when every input row is complete on the non-numeric, non-date columns |
| Frames.PresentCountZero | src/data/load_data.py:57 | a column has a mean exactly when one of its cells is a number |
| Cleaning.ToDatetimeIdentity | src/data/load_data.py:49 | converting a column of timestamps and NaT changes nothing |
| Cleaning.CleanedRowFits | src/data/load_data.py:49-58 | a cleaned row fits the cleaned dtypes and stays complete if the input row was |
| Cleaning.CleanOutputShape | src/data/load_data.py:42-62 | the output is well formed and no row misses a value in a non-numeric, non-date column |
| Cleaning.CleanOutputUnfillable | src/data/load_data.py:56-58 | a numeric column that still misses a value after cleaning holds no number in any row |
| Cleaning.UnfillableRow | src/data/load_data.py:56-58 | if a numeric cell is still missing after cleaning, the column had no mean, so no cleaned row holds a number there |
| Cleaning.CleanSettles | src/data/load_data.py:42-62 | the output satisfies the cleaned-table invariant `Settled` |
| Cleaning.CleanFixpoint | src/data/load_data.py:42-62 | a table satisfying `Settled` is returned unchanged |
| Cleaning.CleanIdempotent | src/data/load_data.py:42-62 | cleaning the output again returns the same table |
| Cleaning.FillCounts | src/data/load_data.py:58 | filling with m makes every cell present and adds m to the sum once per missing cell; there are never more present values than cells |
| Cleaning.FilledMean | src/data/load_data.py:57-58 | a numeric column filled with its mean m still has mean m |
| Cleaning.FillPreservesMean | src/data/load_data.py:57-58 | filling a numeric column with its own mean leaves its mean unchanged, also when it has none |
| Cleaning.ImputeNothing | src/data/load_data.py:56 | before the loop's first turn the rows are unchanged |
| Cleaning.ConvertedColumn | src/data/load_data.py:49 | converting the date column leaves every other column unchanged |
| Frames.Mean | src/data/load_data.py:57 | a column has a mean exactly when it has a present value, and the mean times the number of present values is their sum |
| Frames.MeanBetween | src/data/load_data.py:57 | a mean lies between the smallest and the largest value it averages |
| Frames.SumBounds | src/data/load_data.py:57 | the sum of the present values lies between as many copies of a lower and of an upper bound as there are present values |
| Frames.FilterPositions | src/data/load_data.py:61 | the positions the filter keeps: as many as it keeps, strictly ascending, each holding the element kept there, exactly those whose element satisfies the condition |
| Frames.FilterMembers | src/data/load_data.py:61 | every kept row is an input row satisfying the condition, and every input row satisfying it is kept |
| Frames.KeptIndexAt | src/data/load_data.py:61 | the j-th kept element is the input element at the j-th kept position |
| Frames.KeptIndicesSelect | src/data/load_data.py:61 | the k-th row kept by the filter is the input row at the k-th kept position |
| Frames.KeptIndicesAscending | src/data/load_data.py:61 | kept positions are strictly ascending, so the filter keeps input order |
| Frames.KeptIndicesExactly | src/data/load_data.py:61 | a position is kept exactly when its row satisfies the condition |
| Frames.FilterKeepsAll | src/data/load_data.py:61 | the filter never grows a table, and removes nothing exactly when every row satisfies the condition |
| Frames.FilterNone | src/data/load_data.py:61 | the filter keeps nothing when no row satisfies the condition |
| Frames.SetColumnSame | src/data/load_data.py:49 | assigning a column its own values changes nothing |
| Frames.Frame.constructor | src/data/load_data.py:42 | a new frame holds the given table |
| Calendar.DaysInMonth | src/data/load_data.py:76 | a month has 28 to 31 days |
| Calendar.YearLength | src/data/load_data.py:76 | the month lengths add up to 366 days in a leap year and 365 otherwise |
| Calendar.MonthKey | src/data/load_data.py:76 | the key of a date gives its year back by division by 12 and its month by the remainder, so `MonthEnd` inverts it |
| Calendar.MonthEnd | src/data/load_data.py:76 | the label of month key k lies in month k and is that month's last valid day |
| Calendar.MonthKeyInjective | src/data/load_data.py:76 | two dates share a month key exactly when they share year and month |
| Calendar.MonthKeyOrder | src/data/load_data.py:76 | a date in an earlier month is chronologically earlier |
| Calendar.MonthEndAscending | src/data/load_data.py:76-78 | labels of increasing month keys are in chronological order |
| Aggregation.MonthSpan | src/data/load_data.py:76-78 | a source's resampled range is empty exactly when no row has a timestamp; otherwise it runs from the earliest to the latest dated month, covers every dated row, and both ends are attained |
| Aggregation.MonthCount | src/data/load_data.py:77-78 | a month's count is at most the table's row count, and is 0 for a month outside the table's range |
| Aggregation.Hull | src/data/load_data.py:81 | the hull of two ranges covers both, is empty only when both are, and when both are proper ranges its two ends are months one of them covers, so it is the smallest such range |
| Aggregation.CoveredBetween | src/data/load_data.py:81 | the months from lo to hi that one of the ranges covers, strictly ascending, none left out |
| Aggregation.JoinedMonthsExactly | src/data/load_data.py:81 | the joined index holds exactly the months of the union of the three ranges, each once, ascending |
| Aggregation.MonthValues | src/data/load_data.py:76-82 | each month gets a value in exactly the output columns: `air_<c>` for every air-quality column and the two counts |
| Aggregation.Aggregate | src/data/load_data.py:65-83 | on success the table has the output columns and every month a value in each of them, and no source is a non-empty table without a timestamp |
| Aggregation.MonthlyRowsLabels | src/data/load_data.py:76 | rows built for ascending months carry those months' last days as labels, in chronological order |
| Aggregation.AggregateMonths | src/data/load_data.py:76-81 | each row's label is the last day of its month, labels ascend, and the months are exactly the union of the three sources' ranges |
| Aggregation.AirKey | src/data/load_data.py:76 | stripping `air_` gives the column back, and no `air_` column clashes with a count column |
| Aggregation.AggregateCells | src/data/load_data.py:76-82 | every month has every output column; the two counts are the rows of their source dated in that month; `air_<c>` is the mean of c over that month's air rows, 0 when there is none |
| Aggregation.OutsideSpanEmpty | src/data/load_data.py:76-78 | a month outside a source's range holds none of its rows |
| Aggregation.AirGapIsZero | src/data/load_data.py:76-82 | in a month outside the air table's range every air-quality mean is NaN, which the zero fill makes 0 |
| Aggregation.AggregateGapsAreZero | src/data/load_data.py:81-82 | a month outside a source's range gets exactly 0 in that source's columns |
| Aggregation.AggregateEmpty | src/data/load_data.py:71-82 | three tables without rows whose index columns are timestamp columns aggregate to the output columns and no months, whatever the other air-quality dtypes |
| Aggregation.AggregateNoRowsIff | src/data/load_data.py:76-81 | a successful aggregation has no months exactly when all three sources are empty |
| Aggregation.OccurrencesAscending | src/data/load_data.py:81 | a month occurs once in an ascending index |
| Aggregation.CountOverCons | src/data/load_data.py:77-78 | one more row adds one to the count of its month |
| Aggregation.CountOverAll | src/data/load_data.py:77-78 | summing the monthly counts over an ascending index that covers every dated row counts every dated row once |
| Aggregation.CountOverNone | src/data/load_data.py:77-78 | an empty table has count 0 in every month |
| Aggregation.ColumnTotalCounts | src/data/load_data.py:77-82 | a column of monthly counts adds up to the per-month counts summed over the index |
| Aggregation.AggregateCountsEveryRow | src/data/load_data.py:77-82 | `hospitalizations_total` and `hospitalizations_jp` add up to the number of dated rows of their source |
| Pipeline.CleanedTablesAggregate | src/data/load_data.py:102-106 | tables cleaned on their date columns pass every schema check of the aggregation when every air-quality column other than the timestamp is numeric; the aggregation then succeeds exactly when no cleaned table is a non-empty one whose dates are all NaT |
| Pipeline.OneReadingMean | src/data/load_data.py:57 | the mean of one pm25 reading of 10 and one missing reading is 10 |
| Pipeline.OneReadingKept | src/data/load_data.py:53-61 | with no non-numeric column besides the timestamps, cleaning keeps both rows |
| Pipeline.OneReadingFilled | src/data/load_data.py:56-58 | after cleaning, every pm25 cell is 10: the known reading unchanged, the missing one filled with the mean |
| Pipeline.FilledReading | src/data/load_data.py:58 | a pm25 cell that is 10 or missing comes out as 10 when the column's mean is 10 |
| Pipeline.FillExample | src/data/load_data.py:56-61 | cleaning two January rows keeps both and fills the missing pm25 reading with 10 |

## Left out

- The loaders `load_air_quality`, `load_hospitalizations` and `load_hospitalizations_jp` (lines 10-34): they only read CSV files.
- `save_monthly` (lines 86-92): it only creates a directory, writes a CSV file and prints a message.
- The `__main__` block (lines 96-108): it reads the clock and chains the loaders. Its composition of the two stages is stated by `Pipeline.CleanedTablesAggregate`.
- `src/data/etl.py` is not part of this model. It performs HTTP downloads and file writes.
- The formats `pd.to_datetime` accepts are not modelled. Parsing is the parameter `parse`, a function of one cell. pandas 2 infers one format from a column's first non-null value, so converting a cell can depend on the other cells of its column; each cleaning call therefore takes its own `parse`, one per column converted, and `Pipeline.CleanedTablesAggregate` takes one per source table.
- pandas dtype inference (`select_dtypes`) is not modelled. Each column's dtype is given with the table.
- Floating-point rounding and NaN arithmetic are not modelled. Means are exact reals, and a NaN mean is `None`.
- Time of day is not modelled. Timestamps have day resolution, which is all that monthly bucketing uses.
- Column order is not modelled. Rows are maps and the monthly table's columns are a set.
- Resampling datetime and boolean air-quality columns is not modelled. pandas would average timestamps there, and would average booleans as the share of True. The model has no boolean dtype: `select_dtypes(include="number")` leaves booleans out, so they count as `Other`. It reports `NonNumericMean` for every non-numeric air column of a non-empty table.
- The `'M'` alias of `resample`, which newer pandas versions deprecate in favour of `'ME'`, is not modelled; both mean month-end labels.

=== FILE: aggregation.dfy ===
/** aggregate_monthly: resample the three cleaned tables by calendar month
    (air-quality means, hospitalisation counts), outer-join them on the month
    and fill the gaps with 0. */
module Aggregation {
  import opened Calendar
  import opened Frames

  const AirIndex: string := "timestamp"
  const HospIndex: string := "admission_date"
  const AirPrefix: string := "air_"
  const TotalColumn: string := "hospitalizations_total"
  const JpColumn: string := "hospitalizations_jp"

  /** One row of the monthly table: its month-end label and its cells. */
  datatype MonthlyRow = MonthlyRow(monthEnd: Date, cells: map<string, real>)

  datatype Monthly = Monthly(columns: set<string>, rows: seq<MonthlyRow>)

  /** The month key of a row's index cell; a NaT row falls in no month. */
  function RowMonth(row: Row, index: string): Option<int> {
    match Get(row, index)
    case Stamp(d) => Some(MonthKey(d))
    case _ => None
  }

  /** The rows of month k, in order: one resample bin. */
  function InMonth(rows: seq<Row>, index: string, k: int): seq<Row> {
    Filter(rows, (row: Row) => RowMonth(row, index) == Some(k))
  }

  /** `resample('M').size()` at month k: never more than the table's rows,
      and 0 for a month outside the table's range. */
  function MonthCount(rows: seq<Row>, index: string, k: int): (n: nat)
    ensures n <= |rows|
    ensures n > 0 ==> Covers(MonthSpan(rows, index), k)
  {
    var keep := (row: Row) => RowMonth(row, index) == Some(k);
    FilterKeepsAll(rows, keep);
    FilterMembers(rows, keep);
    if |InMonth(rows, index, k)| > 0 then
      assert InMonth(rows, index, k)[0] in rows;
      |InMonth(rows, index, k)|
    else 0
  }

  /** A table with rows none of which has a timestamp: pandas takes the
      bin edges of the resample from the least and greatest timestamp, which
      are NaT here, and cannot build a month range between them. */
  predicate AllNaT(rows: seq<Row>, index: string) {
    |rows| > 0 && MonthSpan(rows, index).NoMonths?
  }

  /** A range of month keys, or none. */
  datatype Span = NoMonths | Months(first: int, last: int)

  predicate Covers(s: Span, k: int) {
    s.Months? && s.first <= k <= s.last
  }

  /** The months resample emits for a table: every month from the earliest to
      the latest month of a row with a timestamp, whether or not rows fall in
      the months between. */
  function MonthSpan(rows: seq<Row>, index: string): (s: Span)
    ensures s.NoMonths? <==> forall i :: 0 <= i < |rows| ==> RowMonth(rows[i], index).None?
    ensures s.Months? ==> s.first <= s.last
    ensures forall i :: 0 <= i < |rows| && RowMonth(rows[i], index).Some? ==>
              Covers(s, RowMonth(rows[i], index).value)
    ensures s.Months? ==> exists i :: 0 <= i < |rows| && RowMonth(rows[i], index) == Some(s.first)
    ensures s.Months? ==> exists i :: 0 <= i < |rows| && RowMonth(rows[i], index) == Some(s.last)
  {
    if rows == [] then NoMonths
    else
      var rest := MonthSpan(rows[1..], index);
      assert forall i :: 1 <= i < |rows| ==> rows[i] == rows[1..][i - 1];
      match RowMonth(rows[0], index)
      case None => rest
      case Some(k) =>
        if rest.NoMonths? then Months(k, k)
        else Months(if k < rest.first then k else rest.first, if k > rest.last then k else rest.last)
  }

  /** The smallest span covering two spans: it covers both, and when both
      are proper ranges its two ends are months one of them covers. */
  function Hull(s: Span, t: Span): (h: Span)
    ensures forall k :: Covers(s, k) || Covers(t, k) ==> Covers(h, k)
    ensures h.NoMonths? <==> s.NoMonths? && t.NoMonths?
    ensures (s.Months? ==> s.first <= s.last) && (t.Months? ==> t.first <= t.last) && h.Months? ==>
              && (Covers(s, h.first) || Covers(t, h.first))
              && (Covers(s, h.last) || Covers(t, h.last))
  {
    if s.NoMonths? then t
    else if t.NoMonths? then s
    else Months(if s.first < t.first then s.first else t.first, if s.last > t.last then s.last else t.last)
  }

  predicate InUnion(a: Span, b: Span, c: Span, k: int) {
    Covers(a, k) || Covers(b, k) || Covers(c, k)
  }

  /** The months from lo to hi that one of the spans covers, ascending. */
  function CoveredBetween(lo: int, hi: int, a: Span, b: Span, c: Span): (ks: seq<int>)
    decreases hi - lo + 1
    ensures forall j :: 0 <= j < |ks| ==> lo <= ks[j] <= hi && InUnion(a, b, c, ks[j])
    ensures forall j, j' :: 0 <= j < j' < |ks| ==> ks[j] < ks[j']
    ensures forall k :: lo <= k <= hi && InUnion(a, b, c, k) ==> k in ks
  {
    if lo > hi then []
    else (if InUnion(a, b, c, lo) then [lo] else []) + CoveredBetween(lo + 1, hi, a, b, c)
  }

  /** The index of the outer join of three resampled series: the union of
      their months, ascending. */
  function JoinedMonths(a: Span, b: Span, c: Span): seq<int> {
    match Hull(Hull(a, b), c)
    case NoMonths => []
    case Months(lo, hi) => CoveredBetween(lo, hi, a, b, c)
  }

  /** The air-quality columns that get averaged: all but the index. */
  function AirDataColumns(kinds: map<string, Kind>): set<string> {
    set c | c in kinds && c != AirIndex
  }

  /** `add_prefix('air_')`. */
  function AirColumns(kinds: map<string, Kind>): set<string> {
    set c | c in AirDataColumns(kinds) :: AirPrefix + c
  }

  function OutputColumns(airKinds: map<string, Kind>): set<string> {
    AirColumns(airKinds) + {TotalColumn, JpColumn}
  }

  /** `fillna(0)` on one cell. */
  function OrZero(m: Option<real>): real {
    if m.Some? then m.value else 0.0
  }

  /** The cells of month k after the join and the zero fill: a value for
      every output column, none missing. */
  function MonthValues(air: Table, hosp: Table, jp: Table, k: int): (cells: map<string, real>)
    ensures cells.Keys == OutputColumns(air.kinds)
  {
    var means := map key | key in AirColumns(air.kinds) ::
      OrZero(Mean(Column(InMonth(air.rows, AirIndex, k), key[|AirPrefix|..])));
    means[TotalColumn := MonthCount(hosp.rows, HospIndex, k) as real]
         [JpColumn := MonthCount(jp.rows, HospIndex, k) as real]
  }

  /** aggregate_monthly. The checks come in the order the source meets them:
      the three `set_index` calls, then resampling the air table and
      averaging it, then resampling the two hospitalisation tables. pandas
      resamples a table without rows to an empty result without averaging
      anything, so only a non-empty air table fails on a non-numeric
      column. On success the table has the output columns, and every month
      a value in each of them. */
  function Aggregate(air: Table, hosp: Table, jp: Table): (r: Result<Monthly>)
    ensures r.Ok? ==> r.value.columns == OutputColumns(air.kinds)
    ensures r.Ok? ==> forall j :: 0 <= j < |r.value.rows| ==> r.value.rows[j].cells.Keys == r.value.columns
    ensures r.Ok? ==> !AllNaT(air.rows, AirIndex) && !AllNaT(hosp.rows, HospIndex) && !AllNaT(jp.rows, HospIndex)
  {
    if AirIndex !in air.kinds then Err(KeyError(AirIndex))
    else if HospIndex !in hosp.kinds then Err(KeyError(HospIndex))
    else if HospIndex !in jp.kinds then Err(KeyError(HospIndex))
    else if air.kinds[AirIndex] != Datetime then Err(NotDatetimeIndex(AirIndex))
    else if AllNaT(air.rows, AirIndex) then Err(AllNaTIndex(AirIndex))
    else if |air.rows| > 0 && exists c :: c in AirDataColumns(air.kinds) && air.kinds[c] != Numeric then Err(NonNumericMean)
    else if hosp.kinds[HospIndex] != Datetime then Err(NotDatetimeIndex(HospIndex))
    else if AllNaT(hosp.rows, HospIndex) then Err(AllNaTIndex(HospIndex))
    else if jp.kinds[HospIndex] != Datetime then Err(NotDatetimeIndex(HospIndex))
    else if AllNaT(jp.rows, HospIndex) then Err(AllNaTIndex(HospIndex))
    else
      var months := JoinedMonths(MonthSpan(air.rows, AirIndex), MonthSpan(hosp.rows, HospIndex),
                                 MonthSpan(jp.rows, HospIndex));
      Ok(Monthly(OutputColumns(air.kinds), MonthlyRows(air, hosp, jp, months)))
  }

  /** The rows of the monthly table for the months ks, in order. */
  function MonthlyRows(air: Table, hosp: Table, jp: Table, ks: seq<int>): seq<MonthlyRow> {
    seq(|ks|, j requires 0 <= j < |ks| => MonthlyRow(MonthEnd(ks[j]), MonthValues(air, hosp, jp, ks[j])))
  }

  /** Rows built for strictly ascending months carry month-end labels of
      those months, in chronological order. */
  lemma MonthlyRowsLabels(air: Table, hosp: Table, jp: Table, ks: seq<int>)
    requires forall j, j' :: 0 <= j < j' < |ks| ==> ks[j] < ks[j']
    ensures var rows := MonthlyRows(air, hosp, jp, ks);
            && (forall j :: 0 <= j < |rows| ==> IsMonthEnd(rows[j].monthEnd) && MonthKey(rows[j].monthEnd) == ks[j])
            && (forall j, j' :: 0 <= j < j' < |rows| ==> Before(rows[j].monthEnd, rows[j'].monthEnd))
  {
    var rows := MonthlyRows(air, hosp, jp, ks);
    forall j, j' | 0 <= j < j' < |rows|
      ensures Before(rows[j].monthEnd, rows[j'].monthEnd)
    {
      MonthEndAscending(ks[j], ks[j']);
    }
  }

  // ---------------------------------------------------------------------
  // Properties of aggregate_monthly

  /** The joined index holds exactly the months some source's range covers,
      each once, ascending. */
  lemma JoinedMonthsExactly(a: Span, b: Span, c: Span)
    ensures var ks := JoinedMonths(a, b, c);
            && (forall j :: 0 <= j < |ks| ==> InUnion(a, b, c, ks[j]))
            && (forall j, j' :: 0 <= j < j' < |ks| ==> ks[j] < ks[j'])
            && (forall k :: InUnion(a, b, c, k) ==> k in ks)
  {
    var h := Hull(Hull(a, b), c);
    forall k | InUnion(a, b, c, k)
      ensures Covers(h, k)
    {
    }
  }

  /** The rows of the monthly table: each is labelled with the last day of
      its month, the labels ascend, and the months are exactly those in the
      range (earliest to latest month) of at least one of the three sources. */
  lemma AggregateMonths(air: Table, hosp: Table, jp: Table)
    requires Aggregate(air, hosp, jp).Ok?
    ensures var rows := Aggregate(air, hosp, jp).value.rows;
            var a, b, c := MonthSpan(air.rows, AirIndex), MonthSpan(hosp.rows, HospIndex), MonthSpan(jp.rows, HospIndex);
            && (forall j :: 0 <= j < |rows| ==>
                  IsMonthEnd(rows[j].monthEnd) && InUnion(a, b, c, MonthKey(rows[j].monthEnd)))
            && (forall j, j' :: 0 <= j < j' < |rows| ==>
                  MonthKey(rows[j].monthEnd) < MonthKey(rows[j'].monthEnd) && Before(rows[j].monthEnd, rows[j'].monthEnd))
            && (forall k :: InUnion(a, b, c, k) ==> exists j :: 0 <= j < |rows| && MonthKey(rows[j].monthEnd) == k)
  {
    var rows := Aggregate(air, hosp, jp).value.rows;
    var a, b, c := MonthSpan(air.rows, AirIndex), MonthSpan(hosp.rows, HospIndex), MonthSpan(jp.rows, HospIndex);
    var ks := JoinedMonths(a, b, c);
    assert rows == MonthlyRows(air, hosp, jp, ks);
    JoinedMonthsExactly(a, b, c);
    MonthlyRowsLabels(air, hosp, jp, ks);
    forall k | InUnion(a, b, c, k)
      ensures exists j :: 0 <= j < |rows| && MonthKey(rows[j].monthEnd) == k
    {
      var j :| 0 <= j < |ks| && ks[j] == k;
      assert MonthKey(rows[j].monthEnd) == k;
    }
  }

  /** Stripping the prefix `add_prefix` added gives the column back. */
  lemma AirKey(c: string)
    ensures (AirPrefix + c)[|AirPrefix|..] == c
    ensures AirPrefix + c != TotalColumn && AirPrefix + c != JpColumn
  {
    assert (AirPrefix + c)[0] == 'a';
  }

  /** The cells of each month: every column of the table is present (none is
      left missing), the two hospitalisation columns count the rows of their
      source dated in that month, and `air_<c>` is the mean of column c over
      the air rows of that month, 0 where that month has no value of c. */
  lemma AggregateCells(air: Table, hosp: Table, jp: Table, j: int)
    requires Aggregate(air, hosp, jp).Ok?
    requires 0 <= j < |Aggregate(air, hosp, jp).value.rows|
    ensures var m := Aggregate(air, hosp, jp).value;
            var row := m.rows[j];
            var k := MonthKey(row.monthEnd);
            && m.columns == OutputColumns(air.kinds)
            && row.cells.Keys == m.columns
            && row.cells[TotalColumn] == MonthCount(hosp.rows, HospIndex, k) as real
            && row.cells[JpColumn] == MonthCount(jp.rows, HospIndex, k) as real
            && forall c :: c in air.kinds && c != AirIndex ==>
                 AirPrefix + c in row.cells &&
                 row.cells[AirPrefix + c] == OrZero(Mean(Column(InMonth(air.rows, AirIndex, k), c)))
  {
    var m := Aggregate(air, hosp, jp).value;
    var ks := JoinedMonths(MonthSpan(air.rows, AirIndex), MonthSpan(hosp.rows, HospIndex), MonthSpan(jp.rows, HospIndex));
    var k := ks[j];
    assert m.rows[j] == MonthlyRow(MonthEnd(k), MonthValues(air, hosp, jp, k));
    assert TotalColumn !in AirColumns(air.kinds) && JpColumn !in AirColumns(air.kinds) by {
      forall c | c in AirDataColumns(air.kinds)
        ensures AirPrefix + c != TotalColumn && AirPrefix + c != JpColumn
      {
        AirKey(c);
      }
    }
    forall c | c in air.kinds && c != AirIndex
      ensures AirPrefix + c in AirColumns(air.kinds)
      ensures (AirPrefix + c)[|AirPrefix|..] == c
    {
      assert c in AirDataColumns(air.kinds);
      AirKey(c);
    }
  }

  /** A month outside a source's range holds none of its rows. */
  lemma OutsideSpanEmpty(rows: seq<Row>, index: string, k: int)
    requires !Covers(MonthSpan(rows, index), k)
    ensures InMonth(rows, index, k) == []
  {
    FilterNone(rows, (row: Row) => RowMonth(row, index) == Some(k));
  }

  /** Zero fill: in a month that a source's resampled series does not reach,
      that source's cells are exactly 0. */
  lemma AggregateGapsAreZero(air: Table, hosp: Table, jp: Table, j: int)
    requires Aggregate(air, hosp, jp).Ok?
    requires 0 <= j < |Aggregate(air, hosp, jp).value.rows|
    ensures var row := Aggregate(air, hosp, jp).value.rows[j];
            var k := MonthKey(row.monthEnd);
            && (!Covers(MonthSpan(hosp.rows, HospIndex), k) ==> row.cells[TotalColumn] == 0.0)
            && (!Covers(MonthSpan(jp.rows, HospIndex), k) ==> row.cells[JpColumn] == 0.0)
            && (!Covers(MonthSpan(air.rows, AirIndex), k) ==>
                  forall c :: c in air.kinds && c != AirIndex ==> row.cells[AirPrefix + c] == 0.0)
  {
    AggregateCells(air, hosp, jp, j);
    var k := MonthKey(Aggregate(air, hosp, jp).value.rows[j].monthEnd);
    if !Covers(MonthSpan(air.rows, AirIndex), k) {
      AirGapIsZero(air, k);
    }
  }

  /** In a month outside the air table's range every air-quality mean is
      NaN, which the zero fill turns into 0. */
  lemma AirGapIsZero(air: Table, k: int)
    requires !Covers(MonthSpan(air.rows, AirIndex), k)
    ensures forall c :: OrZero(Mean(Column(InMonth(air.rows, AirIndex, k), c))) == 0.0
  {
    OutsideSpanEmpty(air.rows, AirIndex, k);
    forall c
      ensures Mean(Column(InMonth(air.rows, AirIndex, k), c)).None?
    {
      assert Column(InMonth(air.rows, AirIndex, k), c) == [];
    }
  }

  /** Three tables without rows whose index columns are timestamp columns
      aggregate to a table with the output columns and no months, whatever
      the dtypes of the other air-quality columns. */
  lemma AggregateEmpty(air: Table, hosp: Table, jp: Table)
    requires AirIndex in air.kinds && air.kinds[AirIndex] == Datetime
    requires HospIndex in hosp.kinds && hosp.kinds[HospIndex] == Datetime
    requires HospIndex in jp.kinds && jp.kinds[HospIndex] == Datetime
    requires air.rows == [] && hosp.rows == [] && jp.rows == []
    ensures Aggregate(air, hosp, jp) == Ok(Monthly(OutputColumns(air.kinds), []))
  {
    assert !AllNaT(air.rows, AirIndex) && !AllNaT(hosp.rows, HospIndex) && !AllNaT(jp.rows, HospIndex);
    assert MonthSpan(air.rows, AirIndex) == NoMonths;
    assert JoinedMonths(NoMonths, NoMonths, NoMonths) == [];
    var r := Aggregate(air, hosp, jp);
    assert r.Ok?;
    assert r.value.columns == OutputColumns(air.kinds);
    assert r.value.rows == [];
  }

  /** A successful aggregation has no months exactly when all three sources
      are empty: a source with rows has a dated row, whose month appears. */
  lemma AggregateNoRowsIff(air: Table, hosp: Table, jp: Table)
    requires Aggregate(air, hosp, jp).Ok?
    ensures Aggregate(air, hosp, jp).value.rows == [] <==> air.rows == [] && hosp.rows == [] && jp.rows == []
  {
    var a, b, c := MonthSpan(air.rows, AirIndex), MonthSpan(hosp.rows, HospIndex), MonthSpan(jp.rows, HospIndex);
    var ks := JoinedMonths(a, b, c);
    assert |Aggregate(air, hosp, jp).value.rows| == |ks|;
    JoinedMonthsExactly(a, b, c);
    if air.rows != [] {
      assert InUnion(a, b, c, a.first);
    } else if hosp.rows != [] {
      assert InUnion(a, b, c, b.first);
    } else if jp.rows != [] {
      assert InUnion(a, b, c, c.first);
    } else {
      assert JoinedMonths(a, b, c) == [];
    }
  }

  /** The number of rows with a timestamp. */
  function DatedCount(rows: seq<Row>, index: string): nat {
    |Filter(rows, (row: Row) => RowMonth(row, index).Some?)|
  }

  /** The rows dated in the months ks, month by month, added up. */
  function CountOver(rows: seq<Row>, index: string, ks: seq<int>): nat {
    if ks == [] then 0 else MonthCount(rows, index, ks[0]) + CountOver(rows, index, ks[1..])
  }

  function Occurrences(ks: seq<int>, m: int): nat {
    if ks == [] then 0 else (if ks[0] == m then 1 else 0) + Occurrences(ks[1..], m)
  }

  /** A month of an ascending sequence occurs in it once. */
  lemma {:induction false} OccurrencesAscending(ks: seq<int>, m: int)
    requires forall j, j' :: 0 <= j < j' < |ks| ==> ks[j] < ks[j']
    ensures Occurrences(ks, m) == if m in ks then 1 else 0
  {
    if ks != [] {
      OccurrencesAscending(ks[1..], m);
      if ks[0] == m {
        assert m !in ks[1..];
      } else {
        assert m in ks <==> m in ks[1..];
      }
    }
  }

  /** Adding one row in front adds one to the count of its month. */
  lemma {:induction false} CountOverCons(r: Row, rest: seq<Row>, index: string, ks: seq<int>)
    ensures CountOver([r] + rest, index, ks) ==
            CountOver(rest, index, ks) + (if RowMonth(r, index).Some? then Occurrences(ks, RowMonth(r, index).value) else 0)
  {
    if ks != [] {
      CountOverCons(r, rest, index, ks[1..]);
      assert ([r] + rest)[1..] == rest;
    }
  }

  /** Counting month by month over ascending months that include the month of
      every dated row counts every dated row once. */
  lemma {:induction false} CountOverAll(rows: seq<Row>, index: string, ks: seq<int>)
    requires forall j, j' :: 0 <= j < j' < |ks| ==> ks[j] < ks[j']
    requires forall i :: 0 <= i < |rows| && RowMonth(rows[i], index).Some? ==> RowMonth(rows[i], index).value in ks
    ensures CountOver(rows, index, ks) == DatedCount(rows, index)
  {
    if rows == [] {
      CountOverNone(index, ks);
    } else {
      var rest := rows[1..];
      assert rows == [rows[0]] + rest;
      assert forall i :: 1 <= i < |rows| ==> rows[i] == rest[i - 1];
      CountOverAll(rest, index, ks);
      CountOverCons(rows[0], rest, index, ks);
      if RowMonth(rows[0], index).Some? {
        OccurrencesAscending(ks, RowMonth(rows[0], index).value);
      }
    }
  }

  lemma {:induction false} CountOverNone(index: string, ks: seq<int>)
    ensures CountOver([], index, ks) == 0
  {
    if ks != [] {
      CountOverNone(index, ks[1..]);
    }
  }

  /** The sum of one column of the monthly table. */
  function ColumnTotal(rows: seq<MonthlyRow>, col: string): real {
    if rows == [] then 0.0
    else (if col in rows[0].cells then rows[0].cells[col] else 0.0) + ColumnTotal(rows[1..], col)
  }

  lemma {:induction false} ColumnTotalCounts(rows: seq<MonthlyRow>, col: string, src: seq<Row>, index: string, ks: seq<int>)
    requires |rows| == |ks|
    requires forall j :: 0 <= j < |rows| ==> col in rows[j].cells && rows[j].cells[col] == MonthCount(src, index, ks[j]) as real
    ensures ColumnTotal(rows, col) == CountOver(src, index, ks) as real
  {
    if rows != [] {
      ColumnTotalCounts(rows[1..], col, src, index, ks[1..]);
    }
  }

  /** Every dated admission is counted in exactly one month: the
      hospitalisation columns add up to the number of dated rows of their
      source. */
  lemma AggregateCountsEveryRow(air: Table, hosp: Table, jp: Table)
    requires Aggregate(air, hosp, jp).Ok?
    ensures ColumnTotal(Aggregate(air, hosp, jp).value.rows, TotalColumn) == DatedCount(hosp.rows, HospIndex) as real
    ensures ColumnTotal(Aggregate(air, hosp, jp).value.rows, JpColumn) == DatedCount(jp.rows, HospIndex) as real
  {
    var m := Aggregate(air, hosp, jp).value;
    var a, b, c := MonthSpan(air.rows, AirIndex), MonthSpan(hosp.rows, HospIndex), MonthSpan(jp.rows, HospIndex);
    var ks := JoinedMonths(a, b, c);
    JoinedMonthsExactly(a, b, c);
    forall j | 0 <= j < |m.rows|
      ensures MonthKey(m.rows[j].monthEnd) == ks[j]
      ensures TotalColumn in m.rows[j].cells && m.rows[j].cells[TotalColumn] == MonthCount(hosp.rows, HospIndex, ks[j]) as real
      ensures JpColumn in m.rows[j].cells && m.rows[j].cells[JpColumn] == MonthCount(jp.rows, HospIndex, ks[j]) as real
    {
      AggregateCells(air, hosp, jp, j);
    }
    ColumnTotalCounts(m.rows, TotalColumn, hosp.rows, HospIndex, ks);
    ColumnTotalCounts(m.rows, JpColumn, jp.rows, HospIndex, ks);
    CountOverAll(hosp.rows, HospIndex, ks);
    CountOverAll(jp.rows, HospIndex, ks);
  }
}

=== FILE: calendar.dfy ===
/** Gregorian calendar facts used to bucket timestamps by month and to label
    each month with its last day, as pandas' month-end resampling does. */
module Calendar {

  /** A month number, January = 1. */
  type MonthNum = m: int | 1 <= m <= 12 witness 1

  /** A timestamp at day resolution. */
  datatype Date = Date(year: int, month: MonthNum, day: int)

  predicate IsLeapYear(y: int) {
    y % 4 == 0 && (y % 100 != 0 || y % 400 == 0)
  }

  function DaysInMonth(y: int, m: MonthNum): (n: int)
    ensures 28 <= n <= 31
  {
    if m == 2 then (if IsLeapYear(y) then 29 else 28)
    else if m == 4 || m == 6 || m == 9 || m == 11 then 30
    else 31
  }

  predicate ValidDate(d: Date) {
    1 <= d.day <= DaysInMonth(d.year, d.month)
  }

  /** Number of days in the months 1..m of year y. */
  function DaysThrough(y: int, m: nat): nat
    requires m <= 12
  {
    if m == 0 then 0 else DaysThrough(y, m - 1) + DaysInMonth(y, m)
  }

  /** The month lengths add up to the Gregorian year length. */
  lemma {:induction false} YearLength(y: int)
    ensures DaysThrough(y, 12) == if IsLeapYear(y) then 366 else 365
  {
    assert DaysThrough(y, 1) == 31;
    assert DaysThrough(y, 2) == 31 + DaysInMonth(y, 2);
    assert DaysThrough(y, 3) == 62 + DaysInMonth(y, 2);
    assert DaysThrough(y, 4) == 92 + DaysInMonth(y, 2);
    assert DaysThrough(y, 5) == 123 + DaysInMonth(y, 2);
    assert DaysThrough(y, 6) == 153 + DaysInMonth(y, 2);
    assert DaysThrough(y, 7) == 184 + DaysInMonth(y, 2);
    assert DaysThrough(y, 8) == 215 + DaysInMonth(y, 2);
    assert DaysThrough(y, 9) == 245 + DaysInMonth(y, 2);
    assert DaysThrough(y, 10) == 276 + DaysInMonth(y, 2);
    assert DaysThrough(y, 11) == 306 + DaysInMonth(y, 2);
  }

  /** Months counted from January of year 0; consecutive months have
      consecutive keys, so a range of keys is a range of calendar months. */
  function MonthKey(d: Date): (k: int)
    ensures k / 12 == d.year && k % 12 + 1 == d.month
  {
    d.year * 12 + (d.month - 1)
  }

  /** Two dates share a key exactly when they share year and month. */
  lemma MonthKeyInjective(d: Date, e: Date)
    ensures MonthKey(d) == MonthKey(e) <==> d.year == e.year && d.month == e.month
  {
  }

  /** Chronological order of dates (year, then month, then day). */
  predicate Before(d: Date, e: Date) {
    d.year < e.year
    || (d.year == e.year && d.month < e.month)
    || (d.year == e.year && d.month == e.month && d.day < e.day)
  }

  /** A date in an earlier month is chronologically earlier. */
  lemma MonthKeyOrder(d: Date, e: Date)
    requires MonthKey(d) < MonthKey(e)
    ensures Before(d, e)
  {
  }

  /** d is the last calendar day of its month. */
  ghost predicate IsMonthEnd(d: Date) {
    ValidDate(d) && forall e :: ValidDate(e) && MonthKey(e) == MonthKey(d) ==> e.day <= d.day
  }

  /** The label pandas gives month key k: the last calendar day of that month. */
  function MonthEnd(k: int): (d: Date)
    ensures MonthKey(d) == k && IsMonthEnd(d)
  {
    var d := Date(k / 12, k % 12 + 1, DaysInMonth(k / 12, k % 12 + 1));
    forall e | ValidDate(e) && MonthKey(e) == k
      ensures e.day <= d.day
    {
      MonthKeyInjective(d, e);
    }
    d
  }

  /** Month-end labels of increasing keys are in chronological order. */
  lemma MonthEndAscending(k: int, k': int)
    requires k < k'
    ensures Before(MonthEnd(k), MonthEnd(k'))
  {
    MonthKeyOrder(MonthEnd(k), MonthEnd(k'));
  }
}

=== FILE: cleaning.dfy ===
/** clean_data: convert the date column to timestamps, fill each numeric
    column's missing cells with that column's mean, then drop the rows that
    miss a value in any other non-numeric column. */
module Cleaning {
  import opened Calendar
  import opened Frames

  /** What pandas' to_datetime makes of one cell that is neither missing nor
      already a timestamp: a date, NaT, or a value it cannot convert. */
  datatype Parsed = Unparseable | NaT | At(date: Date)

  /** to_datetime on one cell: missing cells become NaT, timestamps stay, any
      other cell fails exactly when `parse` rejects it and otherwise becomes
      the timestamp (or NaT) it parses to. */
  function ToTimestamp(c: Cell, parse: Cell -> Parsed): (r: Option<Cell>)
    ensures r.Some? ==> r.value.Missing? || r.value.Stamp?
    ensures c.Missing? || c.Stamp? ==> r == Some(c)
    ensures r.None? <==> !c.Missing? && !c.Stamp? && parse(c).Unparseable?
    ensures !c.Missing? && !c.Stamp? && parse(c).At? ==> r == Some(Stamp(parse(c).date))
    ensures !c.Missing? && !c.Stamp? && parse(c).NaT? ==> r == Some(Missing)
  {
    match c
    case Missing => Some(Missing)
    case Stamp(_) => Some(c)
    case _ =>
      match parse(c)
      case Unparseable => None
      case NaT => Some(Missing)
      case At(d) => Some(Stamp(d))
  }

  /** `pd.to_datetime(df[date_col])`: converts every cell, or fails naming the
      first cell that cannot be converted. */
  function ToDatetime(col: seq<Cell>, parse: Cell -> Parsed): (r: Result<seq<Cell>>)
    ensures r.Ok? ==> |r.value| == |col|
    ensures r.Ok? ==> forall i :: 0 <= i < |col| ==> ToTimestamp(col[i], parse) == Some(r.value[i])
    ensures r.Err? ==> r.error.ParseError? && r.error.row < |col| && r.error.cell == col[r.error.row]
    ensures r.Err? ==> ToTimestamp(col[r.error.row], parse).None?
    ensures r.Err? ==> forall i :: 0 <= i < r.error.row ==> ToTimestamp(col[i], parse).Some?
  {
    if col == [] then Ok([])
    else
      match ToTimestamp(col[0], parse)
      case None => Err(ParseError(0, col[0]))
      case Some(c) =>
        match ToDatetime(col[1..], parse)
        case Ok(rest) => Ok([c] + rest)
        case Err(e) => Err(ParseError(e.row + 1, e.cell))
  }

  /** `select_dtypes(include="number")`. */
  function NumericColumns(kinds: map<string, Kind>): set<string> {
    set c | c in kinds && kinds[c] == Numeric
  }

  /** `select_dtypes(exclude="number")` without the date column. */
  function ObjectColumns(kinds: map<string, Kind>, dateCol: string): set<string> {
    set c | c in kinds && kinds[c] != Numeric && c != dateCol
  }

  /** `col.fillna(fill)`: present cells stay, and with a fill value no cell
      is left missing; a NaN fill (None) leaves the column as it is. */
  function FillNa(col: seq<Cell>, fill: Option<real>): (r: seq<Cell>)
    ensures |r| == |col|
    ensures forall i :: 0 <= i < |col| && !col[i].Missing? ==> r[i] == col[i]
    ensures fill.Some? ==> forall i :: 0 <= i < |col| && col[i].Missing? ==> r[i] == Num(fill.value)
    ensures fill.Some? ==> forall i :: 0 <= i < |r| ==> !r[i].Missing?
    ensures fill.None? ==> r == col
  {
    seq(|col|, i requires 0 <= i < |col| => if col[i].Missing? && fill.Some? then Num(fill.value) else col[i])
  }

  /** The fill value of each of `cols` that has a mean over `rows`. */
  function Fills(rows: seq<Row>, cols: set<string>): map<string, real> {
    map c | c in cols && Mean(Column(rows, c)).Some? :: Mean(Column(rows, c)).value
  }

  function FillRow(row: Row, fills: map<string, real>): Row {
    map k | k in row :: if k in fills && row[k].Missing? then Num(fills[k]) else row[k]
  }

  /** Every column of `cols` filled with its own mean over `rows`. */
  function Impute(rows: seq<Row>, cols: set<string>): seq<Row> {
    var fills := Fills(rows, cols);
    seq(|rows|, i requires 0 <= i < |rows| => FillRow(rows[i], fills))
  }

  predicate Complete(row: Row, cols: set<string>) {
    forall c :: c in cols ==> !Get(row, c).Missing?
  }

  /** `dropna(subset=cols)`: keeps exactly the rows that miss no value in
      `cols`, and adds none. */
  function DropIncomplete(rows: seq<Row>, cols: set<string>): (r: seq<Row>)
    ensures |r| <= |rows|
    ensures forall j :: 0 <= j < |r| ==> r[j] in rows && Complete(r[j], cols)
    ensures forall i :: 0 <= i < |rows| && Complete(rows[i], cols) ==> rows[i] in r
  {
    var keep := (row: Row) => Complete(row, cols);
    FilterMembers(rows, keep);
    FilterKeepsAll(rows, keep);
    Filter(rows, keep)
  }

  /** The first step of clean_data: the date column converted in place and
      marked as a timestamp column. Every row keeps its place, and its date
      cell becomes a timestamp or NaT. */
  function ConvertDates(t: Table, dateCol: string, parse: Cell -> Parsed): (r: Result<Table>)
    ensures dateCol !in t.kinds ==> r == Err(KeyError(dateCol))
    ensures r.Err? && dateCol in t.kinds ==> r.error.ParseError?
    ensures r.Ok? ==> r.value.kinds == t.kinds[dateCol := Datetime] && |r.value.rows| == |t.rows|
    ensures r.Ok? ==> forall i :: 0 <= i < |t.rows| ==>
              dateCol in r.value.rows[i] && (r.value.rows[i][dateCol].Missing? || r.value.rows[i][dateCol].Stamp?)
  {
    if dateCol !in t.kinds then Err(KeyError(dateCol))
    else
      match ToDatetime(Column(t.rows, dateCol), parse)
      case Err(e) => Err(e)
      case Ok(col) => Ok(Table(t.kinds[dateCol := Datetime], SetColumn(t.rows, dateCol, col)))
  }

  /** The caller's frame once clean_data has converted the dates and filled
      the numeric columns, before it drops rows. */
  function Prepare(t: Table, dateCol: string, parse: Cell -> Parsed): Result<Table> {
    match ConvertDates(t, dateCol, parse)
    case Err(e) => Err(e)
    case Ok(c) => Ok(Table(c.kinds, Impute(c.rows, NumericColumns(c.kinds))))
  }

  /** The table clean_data returns: the date column marked as timestamps,
      no more rows than the input, and none of them missing a value in a
      non-numeric column other than the date column. */
  function Clean(t: Table, dateCol: string, parse: Cell -> Parsed): (r: Result<Table>)
    ensures dateCol !in t.kinds ==> r == Err(KeyError(dateCol))
    ensures r.Ok? ==> r.value.kinds == t.kinds[dateCol := Datetime] && |r.value.rows| <= |t.rows|
    ensures r.Ok? ==> forall j :: 0 <= j < |r.value.rows| ==> Complete(r.value.rows[j], ObjectColumns(t.kinds, dateCol))
  {
    match Prepare(t, dateCol, parse)
    case Err(e) => Err(e)
    case Ok(p) =>
      assert ObjectColumns(p.kinds, dateCol) == ObjectColumns(t.kinds, dateCol);
      Ok(Table(p.kinds, DropIncomplete(p.rows, ObjectColumns(p.kinds, dateCol))))
  }

  /** clean_data on a DataFrame object. Like the source, it converts the date
      column and fills the numeric columns in the caller's frame, one column
      at a time, and returns the filtered copy. */
  method CleanData(df: Frame, dateCol: string, parse: Cell -> Parsed) returns (r: Result<Table>)
    requires WellFormed(df.Value())
    modifies df
    ensures r == Clean(old(df.Value()), dateCol, parse)
    ensures Prepare(old(df.Value()), dateCol, parse).Ok? ==> df.Value() == Prepare(old(df.Value()), dateCol, parse).value
    ensures Prepare(old(df.Value()), dateCol, parse).Err? ==> df.Value() == old(df.Value())
    ensures WellFormed(df.Value())
  {
    ghost var input := df.Value();
    if dateCol !in df.kinds {
      return Err(KeyError(dateCol));
    }
    var converted := ToDatetime(Column(df.rows, dateCol), parse);
    if converted.Err? {
      return Err(converted.error);
    }
    df.rows := SetColumn(df.rows, dateCol, converted.value);
    df.kinds := df.kinds[dateCol := Datetime];
    var numCols := NumericColumns(df.kinds);
    var objCols := ObjectColumns(df.kinds, dateCol);
    ghost var base := df.rows;
    assert forall i :: 0 <= i < |base| ==> numCols <= base[i].Keys;
    ImputeNothing(base);
    var todo := numCols;
    ghost var done: set<string> := {};
    while todo != {}
      invariant todo + done == numCols && todo !! done
      invariant df.kinds == old(df.kinds)[dateCol := Datetime]
      invariant df.rows == Impute(base, done)
      decreases todo
    {
      var c :| c in todo;
      FillStep(base, done, c);
      var mean := Mean(Column(df.rows, c));
      df.rows := SetColumn(df.rows, c, FillNa(Column(df.rows, c), mean));
      todo := todo - {c};
      done := done + {c};
    }
    PreparedWellFormed(input, dateCol, parse);
    r := Ok(Table(df.kinds, DropIncomplete(df.rows, objCols)));
  }

  /** Filling no column changes nothing. */
  lemma ImputeNothing(rows: seq<Row>)
    ensures Impute(rows, {}) == rows
  {
    assert Fills(rows, {}) == map[];
    forall i | 0 <= i < |rows|
      ensures FillRow(rows[i], map[]) == rows[i]
    {
    }
  }

  /** One turn of clean_data's fill loop: the mean of a column not yet
      filled is its mean over the converted table, and filling it extends
      the set of filled columns by one. */
  lemma FillStep(base: seq<Row>, done: set<string>, c: string)
    requires c !in done
    requires forall i :: 0 <= i < |base| ==> c in base[i]
    ensures Column(Impute(base, done), c) == Column(base, c)
    ensures SetColumn(Impute(base, done), c, FillNa(Column(base, c), Mean(Column(base, c))))
            == Impute(base, done + {c})
  {
    var cur := Impute(base, done);
    var f, f' := Fills(base, done), Fills(base, done + {c});
    var col := FillNa(Column(base, c), Mean(Column(base, c)));
    assert c !in f;
    forall k | k in f'
      ensures k != c ==> k in f && f'[k] == f[k]
      ensures k == c ==> Mean(Column(base, c)) == Some(f'[k])
    {
    }
    forall k | k in f
      ensures k in f'
    {
    }
    var next := SetColumn(cur, c, col);
    var want := Impute(base, done + {c});
    forall i | 0 <= i < |base|
      ensures next[i] == want[i]
    {
      assert next[i].Keys == want[i].Keys;
      forall k | k in want[i]
        ensures next[i][k] == want[i][k]
      {
        if k == c {
          assert Column(base, c)[i] == base[i][c];
        }
      }
    }
  }

  // ---------------------------------------------------------------------
  // Properties of clean_data

  /** Every column other than the date column is either filled (numeric) or
      drops rows (non-numeric), never both; the date column does neither
      unless it is numeric. */
  lemma ColumnsPartition(kinds: map<string, Kind>, dateCol: string)
    ensures NumericColumns(kinds) !! ObjectColumns(kinds, dateCol)
    ensures NumericColumns(kinds) + ObjectColumns(kinds, dateCol) + ({dateCol} * kinds.Keys) == kinds.Keys
    ensures dateCol !in ObjectColumns(kinds, dateCol)
    ensures dateCol in kinds && kinds[dateCol] == Datetime ==> dateCol !in NumericColumns(kinds)
  {
  }

  /** A table whose date column is already a timestamp column always cleans:
      its cells are timestamps or NaT, which convert to themselves. */
  lemma DatetimeColumnCleans(t: Table, dateCol: string, parse: Cell -> Parsed)
    requires WellFormed(t) && dateCol in t.kinds && t.kinds[dateCol] == Datetime
    ensures Clean(t, dateCol, parse).Ok?
  {
    CleanFails(t, dateCol, parse);
    forall i | 0 <= i < |t.rows|
      ensures ToTimestamp(Get(t.rows[i], dateCol), parse).Some?
    {
      assert RowFits(t.kinds, t.rows[i]);
    }
  }

  /** Converting the date column leaves every other column as it was. */
  lemma ConvertedColumn(t: Table, dateCol: string, parse: Cell -> Parsed, c: string)
    requires ConvertDates(t, dateCol, parse).Ok? && c != dateCol
    ensures Column(ConvertDates(t, dateCol, parse).value.rows, c) == Column(t.rows, c)
  {
  }

  /** How an input row reappears in clean_data's output: the date converted,
      every present value unchanged, and a missing value replaced by its
      numeric column's mean over all input rows, when that mean exists. */
  predicate CleanedRow(t: Table, dateCol: string, parse: Cell -> Parsed, row: Row, out: Row)
    requires dateCol in row
  {
    && out.Keys == row.Keys
    && ToTimestamp(row[dateCol], parse) == Some(out[dateCol])
    && (forall c :: c in row && c != dateCol && !row[c].Missing? ==> out[c] == row[c])
    && (forall c :: c in row && c != dateCol && row[c].Missing? ==>
          out[c] == if c in t.kinds && t.kinds[c] == Numeric && Mean(Column(t.rows, c)).Some?
                    then Num(Mean(Column(t.rows, c)).value) else Missing)
  }

  /** Row i of the caller's frame after the fill loop is input row i cleaned,
      and it misses a non-numeric, non-date value exactly when the input row
      does. */
  lemma PreparedRow(t: Table, dateCol: string, parse: Cell -> Parsed, i: int)
    requires WellFormed(t) && Prepare(t, dateCol, parse).Ok? && 0 <= i < |t.rows|
    ensures dateCol in t.kinds && dateCol in t.rows[i]
    ensures |Prepare(t, dateCol, parse).value.rows| == |t.rows|
    ensures CleanedRow(t, dateCol, parse, t.rows[i], Prepare(t, dateCol, parse).value.rows[i])
    ensures Complete(Prepare(t, dateCol, parse).value.rows[i], ObjectColumns(t.kinds, dateCol))
            <==> Complete(t.rows[i], ObjectColumns(t.kinds, dateCol))
  {
    var conv := ConvertDates(t, dateCol, parse).value;
    var col := ToDatetime(Column(t.rows, dateCol), parse).value;
    var numCols := NumericColumns(conv.kinds);
    var fills := Fills(conv.rows, numCols);
    var row := t.rows[i];
    var out := Prepare(t, dateCol, parse).value.rows[i];
    assert RowFits(t.kinds, row);
    assert out == FillRow(conv.rows[i], fills);
    assert conv.rows[i] == row[dateCol := col[i]];
    assert Column(t.rows, dateCol)[i] == row[dateCol];
    forall c | c in row && c != dateCol
      ensures c in fills <==> t.kinds[c] == Numeric && Mean(Column(t.rows, c)).Some?
      ensures c in fills ==> fills[c] == Mean(Column(t.rows, c)).value
    {
      ConvertedColumn(t, dateCol, parse, c);
    }
    var objCols := ObjectColumns(t.kinds, dateCol);
    forall c | c in objCols
      ensures Get(out, c) == Get(row, c)
    {
    }
  }

  /** The output of clean_data: the input rows that miss no value in a
      non-numeric column other than the date column, in their original order,
      each cleaned as CleanedRow says; the fill value of a numeric column is
      its mean over all input rows, dropped ones included, and depends on
      that column alone. */
  lemma CleanRows(t: Table, dateCol: string, parse: Cell -> Parsed) returns (idx: seq<int>)
    requires WellFormed(t)
    requires Clean(t, dateCol, parse).Ok?
    ensures dateCol in t.kinds
    ensures Clean(t, dateCol, parse).value.kinds == t.kinds[dateCol := Datetime]
    ensures |idx| == |Clean(t, dateCol, parse).value.rows| <= |t.rows|
    ensures forall j, j' :: 0 <= j < j' < |idx| ==> idx[j] < idx[j']
    ensures forall j :: 0 <= j < |idx| ==> 0 <= idx[j] < |t.rows|
    ensures forall j :: 0 <= j < |idx| ==>
              CleanedRow(t, dateCol, parse, t.rows[idx[j]], Clean(t, dateCol, parse).value.rows[j])
    ensures forall i :: 0 <= i < |t.rows| ==> (i in idx <==> Complete(t.rows[i], ObjectColumns(t.kinds, dateCol)))
  {
    var prep := Prepare(t, dateCol, parse).value;
    var objCols := ObjectColumns(t.kinds, dateCol);
    assert prep.kinds == t.kinds[dateCol := Datetime];
    assert ObjectColumns(prep.kinds, dateCol) == objCols;
    var keep := (row: Row) => Complete(row, objCols);
    assert Clean(t, dateCol, parse).value.rows == Filter(prep.rows, keep);
    idx := FilterPositions(prep.rows, keep);
    PreparedRows(t, dateCol, parse);
  }

  /** The caller's frame stays well formed once its dates are converted and
      its numeric columns filled. */
  lemma PreparedWellFormed(t: Table, dateCol: string, parse: Cell -> Parsed)
    requires WellFormed(t) && Prepare(t, dateCol, parse).Ok?
    ensures WellFormed(Prepare(t, dateCol, parse).value)
  {
    var p := Prepare(t, dateCol, parse).value;
    PreparedRows(t, dateCol, parse);
    assert p.kinds == t.kinds[dateCol := Datetime];
    forall i | 0 <= i < |p.rows|
      ensures RowFits(p.kinds, p.rows[i])
    {
      assert RowFits(t.kinds, t.rows[i]);
      CleanedRowFits(t, dateCol, parse, t.rows[i], p.rows[i]);
    }
  }

  /** PreparedRow for every row of the table. */
  lemma PreparedRows(t: Table, dateCol: string, parse: Cell -> Parsed)
    requires WellFormed(t) && Prepare(t, dateCol, parse).Ok?
    ensures dateCol in t.kinds
    ensures |Prepare(t, dateCol, parse).value.rows| == |t.rows|
    ensures forall i :: 0 <= i < |t.rows| ==>
              (dateCol in t.rows[i] &&
               CleanedRow(t, dateCol, parse, t.rows[i], Prepare(t, dateCol, parse).value.rows[i]))
    ensures forall i :: 0 <= i < |t.rows| ==>
              (Complete(Prepare(t, dateCol, parse).value.rows[i], ObjectColumns(t.kinds, dateCol))
               <==> Complete(t.rows[i], ObjectColumns(t.kinds, dateCol)))
  {
    assert dateCol in t.kinds;
    forall i | 0 <= i < |t.rows|
      ensures dateCol in t.rows[i] &&
              CleanedRow(t, dateCol, parse, t.rows[i], Prepare(t, dateCol, parse).value.rows[i])
      ensures Complete(Prepare(t, dateCol, parse).value.rows[i], ObjectColumns(t.kinds, dateCol))
              <==> Complete(t.rows[i], ObjectColumns(t.kinds, dateCol))
    {
      PreparedRow(t, dateCol, parse, i);
    }
  }

  /** clean_data fails exactly when the date column is absent (KeyError) or
      one of its cells cannot be converted (a ParseError naming the first). */
  lemma CleanFails(t: Table, dateCol: string, parse: Cell -> Parsed)
    ensures dateCol !in t.kinds ==> Clean(t, dateCol, parse) == Err(KeyError(dateCol))
    ensures dateCol in t.kinds ==>
              (Clean(t, dateCol, parse).Err? <==>
               exists i :: 0 <= i < |t.rows| && ToTimestamp(Get(t.rows[i], dateCol), parse).None?)
    ensures dateCol in t.kinds && Clean(t, dateCol, parse).Err? ==>
              var e := Clean(t, dateCol, parse).error;
              && e.ParseError? && e.row < |t.rows| && e.cell == Get(t.rows[e.row], dateCol)
              && ToTimestamp(e.cell, parse).None?
              && forall i :: 0 <= i < e.row ==> ToTimestamp(Get(t.rows[i], dateCol), parse).Some?
  {
    if dateCol in t.kinds {
      var col := Column(t.rows, dateCol);
      var r := ToDatetime(col, parse);
      if r.Ok? {
        forall i | 0 <= i < |t.rows|
          ensures ToTimestamp(Get(t.rows[i], dateCol), parse).Some?
        {
          assert col[i] == Get(t.rows[i], dateCol);
        }
      } else {
        assert col[r.error.row] == Get(t.rows[r.error.row], dateCol);
        forall i | 0 <= i < r.error.row
          ensures ToTimestamp(Get(t.rows[i], dateCol), parse).Some?
        {
          assert col[i] == Get(t.rows[i], dateCol);
        }
      }
    }
  }

  /** clean_data removes no row exactly when no row misses a value in a
      non-numeric column other than the date column. */
  lemma CleanDropsNothingIff(t: Table, dateCol: string, parse: Cell -> Parsed)
    requires WellFormed(t)
    requires Clean(t, dateCol, parse).Ok?
    ensures |Clean(t, dateCol, parse).value.rows| == |t.rows| <==>
            forall i :: 0 <= i < |t.rows| ==> Complete(t.rows[i], ObjectColumns(t.kinds, dateCol))
  {
    var prep := Prepare(t, dateCol, parse).value;
    var objCols := ObjectColumns(t.kinds, dateCol);
    assert ObjectColumns(prep.kinds, dateCol) == objCols;
    var keep := (row: Row) => Complete(row, objCols);
    FilterKeepsAll(prep.rows, keep);
    forall i | 0 <= i < |t.rows|
      ensures keep(prep.rows[i]) <==> Complete(t.rows[i], objCols)
    {
      PreparedRow(t, dateCol, parse, i);
    }
  }

  /** Converting a column that holds only timestamps and NaT changes nothing. */
  lemma {:induction false} ToDatetimeIdentity(col: seq<Cell>, parse: Cell -> Parsed)
    requires forall i :: 0 <= i < |col| ==> col[i].Missing? || col[i].Stamp?
    ensures ToDatetime(col, parse) == Ok(col)
  {
    if col != [] {
      ToDatetimeIdentity(col[1..], parse);
      assert [col[0]] + col[1..] == col;
    }
  }

  /** A cleaned row has the dtypes of the cleaned table, and stays complete. */
  lemma CleanedRowFits(t: Table, dateCol: string, parse: Cell -> Parsed, row: Row, out: Row)
    requires RowFits(t.kinds, row) && dateCol in row
    requires CleanedRow(t, dateCol, parse, row, out)
    ensures RowFits(t.kinds[dateCol := Datetime], out)
    ensures Complete(row, ObjectColumns(t.kinds, dateCol)) ==> Complete(out, ObjectColumns(t.kinds, dateCol))
  {
  }

  /** clean_data's output is well formed and misses no value in a
      non-numeric, non-date column. */
  lemma CleanOutputShape(t: Table, dateCol: string, parse: Cell -> Parsed)
    requires WellFormed(t)
    requires Clean(t, dateCol, parse).Ok?
    ensures WellFormed(Clean(t, dateCol, parse).value)
    ensures var out := Clean(t, dateCol, parse).value;
            forall j :: 0 <= j < |out.rows| ==> Complete(out.rows[j], ObjectColumns(out.kinds, dateCol))
  {
    var out := Clean(t, dateCol, parse).value;
    var idx := CleanRows(t, dateCol, parse);
    assert ObjectColumns(out.kinds, dateCol) == ObjectColumns(t.kinds, dateCol);
    forall j | 0 <= j < |out.rows|
      ensures RowFits(out.kinds, out.rows[j])
      ensures Complete(out.rows[j], ObjectColumns(out.kinds, dateCol))
    {
      assert RowFits(t.kinds, t.rows[idx[j]]);
      assert idx[j] in idx;
      CleanedRowFits(t, dateCol, parse, t.rows[idx[j]], out.rows[j]);
    }
  }

  /** After cleaning, a numeric column that still misses a value holds no
      number at all: its input column had none to average. */
  lemma CleanOutputUnfillable(t: Table, dateCol: string, parse: Cell -> Parsed, j: int, j': int, k: string)
    requires WellFormed(t)
    requires Clean(t, dateCol, parse).Ok?
    requires var out := Clean(t, dateCol, parse).value;
             0 <= j < |out.rows| && 0 <= j' < |out.rows| && k in out.kinds && out.kinds[k] == Numeric
    requires Get(Clean(t, dateCol, parse).value.rows[j], k).Missing?
    ensures !Get(Clean(t, dateCol, parse).value.rows[j'], k).Num?
  {
    var out := Clean(t, dateCol, parse).value;
    var idx := CleanRows(t, dateCol, parse);
    assert RowFits(t.kinds, t.rows[idx[j]]) && RowFits(t.kinds, t.rows[idx[j']]);
    UnfillableRow(t, dateCol, parse, t.rows[idx[j]], out.rows[j], idx[j'], out.rows[j'], k);
  }

  /** CleanOutputUnfillable for one pair of rows: if cleaning leaves the
      numeric cell k of one row missing, the column has no mean, so the
      cleaned cell k of row i' of the table is no number either. */
  lemma UnfillableRow(t: Table, dateCol: string, parse: Cell -> Parsed, row: Row, out: Row, i': int, out': Row, k: string)
    requires k in t.kinds && t.kinds[k] == Numeric && k != dateCol
    requires 0 <= i' < |t.rows| && RowFits(t.kinds, row) && RowFits(t.kinds, t.rows[i'])
    requires dateCol in row && dateCol in t.rows[i']
    requires CleanedRow(t, dateCol, parse, row, out) && CleanedRow(t, dateCol, parse, t.rows[i'], out')
    requires Get(out, k).Missing?
    ensures !Get(out', k).Num?
  {
    var tcol := Column(t.rows, k);
    assert row[k].Missing? && Mean(tcol).None?;
    PresentCountZero(tcol);
    assert tcol[i'] == t.rows[i'][k];
  }

  /** The invariant of a cleaned record set: well formed, the date column
      converted, no missing value in a non-numeric, non-date column, and no
      missing value in a numeric column that has a mean to fill it with. */
  predicate Settled(t: Table, dateCol: string) {
    && WellFormed(t)
    && dateCol in t.kinds && t.kinds[dateCol] == Datetime
    && (forall j :: 0 <= j < |t.rows| ==> Complete(t.rows[j], ObjectColumns(t.kinds, dateCol)))
    && (forall k :: k in t.kinds && t.kinds[k] == Numeric && Mean(Column(t.rows, k)).Some? ==>
          forall j :: 0 <= j < |t.rows| ==> !Get(t.rows[j], k).Missing?)
  }

  /** clean_data establishes the invariant. */
  lemma CleanSettles(t: Table, dateCol: string, parse: Cell -> Parsed)
    requires WellFormed(t)
    requires Clean(t, dateCol, parse).Ok?
    ensures Settled(Clean(t, dateCol, parse).value, dateCol)
  {
    var out := Clean(t, dateCol, parse).value;
    var idx := CleanRows(t, dateCol, parse);
    CleanOutputShape(t, dateCol, parse);
    forall k, j | k in out.kinds && out.kinds[k] == Numeric && Mean(Column(out.rows, k)).Some? && 0 <= j < |out.rows|
      ensures !Get(out.rows[j], k).Missing?
    {
      PresentCountZero(Column(out.rows, k));
      var j' :| 0 <= j' < |out.rows| && Column(out.rows, k)[j'].Num?;
      if Get(out.rows[j], k).Missing? {
        CleanOutputUnfillable(t, dateCol, parse, j, j', k);
      }
    }
  }

  /** clean_data leaves a table that satisfies the invariant as it is. */
  lemma CleanFixpoint(t: Table, dateCol: string, parse: Cell -> Parsed)
    requires Settled(t, dateCol)
    ensures Clean(t, dateCol, parse) == Ok(t)
  {
    var dates := Column(t.rows, dateCol);
    forall j | 0 <= j < |t.rows|
      ensures dateCol in t.rows[j]
      ensures dates[j].Missing? || dates[j].Stamp?
    {
      assert RowFits(t.kinds, t.rows[j]);
    }
    ToDatetimeIdentity(dates, parse);
    SetColumnSame(t.rows, dateCol);
    assert t.kinds[dateCol := Datetime] == t.kinds;
    assert ConvertDates(t, dateCol, parse) == Ok(t);
    var fills := Fills(t.rows, NumericColumns(t.kinds));
    forall j | 0 <= j < |t.rows|
      ensures FillRow(t.rows[j], fills) == t.rows[j]
    {
      assert RowFits(t.kinds, t.rows[j]);
      forall k | k in fills
        ensures !Get(t.rows[j], k).Missing?
      {
      }
    }
    assert Impute(t.rows, NumericColumns(t.kinds)) == t.rows;
    FilterKeepsAll(t.rows, (row: Row) => Complete(row, ObjectColumns(t.kinds, dateCol)));
  }

  /** Running clean_data on its own output changes neither rows nor values. */
  lemma CleanIdempotent(t: Table, dateCol: string, parse: Cell -> Parsed)
    requires WellFormed(t)
    requires Clean(t, dateCol, parse).Ok?
    ensures Clean(Clean(t, dateCol, parse).value, dateCol, parse) == Clean(t, dateCol, parse)
  {
    CleanSettles(t, dateCol, parse);
    CleanFixpoint(Clean(t, dateCol, parse).value, dateCol, parse);
  }

  /** Filling a numeric column with its mean keeps that mean. */
  lemma {:induction false} FillCounts(col: seq<Cell>, m: real)
    requires forall i :: 0 <= i < |col| ==> col[i].Missing? || col[i].Num?
    ensures PresentCount(col) <= |col|
    ensures PresentCount(FillNa(col, Some(m))) == |col|
    ensures PresentSum(FillNa(col, Some(m))) == PresentSum(col) + Times(|col| - PresentCount(col), m)
  {
    if col != [] {
      var rest := col[1..];
      var f := FillNa(col, Some(m));
      FillCounts(rest, m);
      assert f[1..] == FillNa(rest, Some(m));
      if col[0].Missing? {
        assert f[0] == Num(m);
        assert |col| - PresentCount(col) == |rest| - PresentCount(rest) + 1;
      } else {
        assert f[0] == col[0];
      }
    }
  }

  lemma FillPreservesMean(col: seq<Cell>)
    requires forall i :: 0 <= i < |col| ==> col[i].Missing? || col[i].Num?
    ensures Mean(FillNa(col, Mean(col))) == Mean(col)
  {
    if Mean(col).None? {
      assert FillNa(col, None) == col;
    } else {
      FilledMean(col, Mean(col).value);
    }
  }

  /** Filling with a column's mean m keeps its mean at m. */
  lemma FilledMean(col: seq<Cell>, m: real)
    requires forall i :: 0 <= i < |col| ==> col[i].Missing? || col[i].Num?
    requires Mean(col) == Some(m)
    ensures Mean(FillNa(col, Some(m))) == Some(m)
  {
    var filled := FillNa(col, Some(m));
    FillCounts(col, m);
    FilledMeanArith(PresentSum(col), PresentCount(col), |col|, m, PresentSum(filled));
    assert Mean(filled) == Some(PresentSum(filled) / |col| as real);
  }

  /** Adding the mean m of k values once for each of n - k missing cells
      and dividing by n gives m back. */
  lemma FilledMeanArith(s: real, k: nat, n: nat, m: real, total: real)
    requires 0 < k <= n && m == s / k as real
    requires total == s + Times(n - k, m)
    ensures total / n as real == m
  {
    var k', n' := k as real, n as real;
    TimesIsProduct(n - k, m);
    assert s == k' * m;
    assert (n - k) as real * m == n' * m - k' * m;
    assert total == n' * m;
    DivCancel(m, n');
  }

  lemma DivCancel(a: real, n: real)
    requires n != 0.0
    ensures (n * a) / n == a
  {
    var q := (n * a) / n;
    assert q * n == n * a;
    assert (q - a) * n == 0.0;
  }
}

=== FILE: frames.dfy ===
/** Tables of rows keyed by column name, as pandas DataFrames hold them, and
    the column statistics the pipeline computes on them. */
module Frames {
  import opened Calendar

  datatype Option<T> = None | Some(value: T)

  /** One cell: a missing value (NaN, None or NaT), a number, a text, or a
      timestamp. */
  datatype Cell = Missing | Num(x: real) | Text(s: string) | Stamp(date: Date)

  /** The dtype of a column, as far as the pipeline distinguishes them. */
  datatype Kind = Numeric | Datetime | Other

  type Row = map<string, Cell>

  /** A DataFrame as a value: the dtype of each column and the rows in order. */
  datatype Table = Table(kinds: map<string, Kind>, rows: seq<Row>)

  /** The exceptions the pipeline can raise. */
  datatype Error =
    | KeyError(column: string)       // a named column does not exist
    | ParseError(row: nat, cell: Cell) // a date cell pandas cannot convert
    | NotDatetimeIndex(column: string) // resampling on a non-datetime index
    | NonNumericMean                   // averaging a non-numeric column
    | AllNaTIndex(column: string)      // resampling rows none of which has a timestamp

  datatype Result<T> = Ok(value: T) | Err(error: Error)

  /** A cell may sit in a column of the given dtype. */
  predicate Fits(k: Kind, c: Cell) {
    match k
    case Numeric => c.Missing? || c.Num?
    case Datetime => c.Missing? || c.Stamp?
    case Other => true
  }

  predicate RowFits(kinds: map<string, Kind>, row: Row) {
    row.Keys == kinds.Keys && forall c :: c in kinds ==> Fits(kinds[c], row[c])
  }

  /** Every row has exactly the table's columns, each cell of its column's dtype. */
  predicate WellFormed(t: Table) {
    forall i :: 0 <= i < |t.rows| ==> RowFits(t.kinds, t.rows[i])
  }

  function Get(row: Row, c: string): Cell {
    if c in row then row[c] else Missing
  }

  /** The column c of the rows, top to bottom (`df[c]`). */
  function Column(rows: seq<Row>, c: string): seq<Cell> {
    seq(|rows|, i requires 0 <= i < |rows| => Get(rows[i], c))
  }

  /** Assigns a whole column (`df[c] = col`). */
  function SetColumn(rows: seq<Row>, c: string, col: seq<Cell>): (r: seq<Row>)
    requires |col| == |rows|
  {
    seq(|rows|, i requires 0 <= i < |rows| => rows[i][c := col[i]])
  }

  /** Assigning a column its own values changes nothing. */
  lemma SetColumnSame(rows: seq<Row>, c: string)
    requires forall i :: 0 <= i < |rows| ==> c in rows[i]
    ensures SetColumn(rows, c, Column(rows, c)) == rows
  {
    var r := SetColumn(rows, c, Column(rows, c));
    forall i | 0 <= i < |rows|
      ensures r[i] == rows[i]
    {
      assert r[i] == rows[i][c := rows[i][c]];
    }
  }

  function PresentCount(col: seq<Cell>): nat {
    if col == [] then 0 else (if col[0].Num? then 1 else 0) + PresentCount(col[1..])
  }

  function PresentSum(col: seq<Cell>): real {
    if col == [] then 0.0 else (if col[0].Num? then col[0].x else 0.0) + PresentSum(col[1..])
  }

  /** `Series.mean()`: the mean of the present numbers, NaN (None) when there
      are none. */
  function Mean(col: seq<Cell>): (r: Option<real>)
    ensures r.Some? <==> PresentCount(col) > 0
    ensures r.Some? ==> Times(PresentCount(col), r.value) == PresentSum(col)
  {
    if PresentCount(col) == 0 then None
    else
      var m := PresentSum(col) / PresentCount(col) as real;
      TimesIsProduct(PresentCount(col), m);
      Some(m)
  }

  /** A column has a mean exactly when one of its cells is a number. */
  lemma {:induction false} PresentCountZero(col: seq<Cell>)
    ensures PresentCount(col) == 0 <==> forall i :: 0 <= i < |col| ==> !col[i].Num?
  {
    if col != [] {
      PresentCountZero(col[1..]);
      assert forall i :: 1 <= i < |col| ==> col[i] == col[1..][i - 1];
    }
  }

  /** n copies of x added up. */
  function Times(n: nat, x: real): real {
    if n == 0 then 0.0 else Times(n - 1, x) + x
  }

  lemma {:induction false} TimesIsProduct(n: nat, x: real)
    ensures Times(n, x) == n as real * x
  {
    if n > 0 {
      TimesIsProduct(n - 1, x);
      assert (n - 1) as real * x + x == n as real * x;
    }
  }

  /** The sum of the present numbers lies between as many copies of a lower
      and of an upper bound as there are present numbers. */
  lemma {:induction false} SumBounds(col: seq<Cell>, lo: real, hi: real)
    requires forall i :: 0 <= i < |col| && col[i].Num? ==> lo <= col[i].x <= hi
    ensures Times(PresentCount(col), lo) <= PresentSum(col) <= Times(PresentCount(col), hi)
  {
    if col != [] {
      var rest := col[1..];
      assert forall i :: 0 <= i < |rest| && rest[i].Num? ==> lo <= rest[i].x <= hi by {
        forall i | 0 <= i < |rest| ensures rest[i] == col[i + 1] { }
      }
      SumBounds(rest, lo, hi);
    }
  }

  /** A mean lies between the smallest and the largest value it averages. */
  lemma MeanBetween(col: seq<Cell>, lo: real, hi: real)
    requires forall i :: 0 <= i < |col| && col[i].Num? ==> lo <= col[i].x <= hi
    requires Mean(col).Some?
    ensures lo <= Mean(col).value <= hi
  {
    SumBounds(col, lo, hi);
    TimesIsProduct(PresentCount(col), lo);
    TimesIsProduct(PresentCount(col), hi);
    DivBetween(PresentSum(col), PresentCount(col) as real, lo, hi);
  }

  lemma DivBetween(s: real, n: real, lo: real, hi: real)
    requires n > 0.0 && n * lo <= s <= n * hi
    ensures lo <= s / n <= hi
  {
    var m := s / n;
    assert s == m * n;
  }

  /** The elements that satisfy `keep`, in their original order. */
  function Filter<T>(xs: seq<T>, keep: T -> bool): seq<T> {
    if xs == [] then []
    else (if keep(xs[0]) then [xs[0]] else []) + Filter(xs[1..], keep)
  }

  /** Every position moved one place to the right. */
  function Shift(ps: seq<int>): seq<int> {
    seq(|ps|, j requires 0 <= j < |ps| => ps[j] + 1)
  }

  /** The positions of the elements Filter keeps. */
  function KeptIndices<T>(xs: seq<T>, keep: T -> bool): (idx: seq<int>)
    ensures |idx| == |Filter(xs, keep)|
  {
    if xs == [] then []
    else
      var rest := KeptIndices(xs[1..], keep);
      (if keep(xs[0]) then [0] else []) + Shift(rest)
  }

  lemma {:induction false} KeptIndicesSelect<T>(xs: seq<T>, keep: T -> bool)
    ensures forall j :: 0 <= j < |KeptIndices(xs, keep)| ==>
              0 <= KeptIndices(xs, keep)[j] < |xs| && Filter(xs, keep)[j] == xs[KeptIndices(xs, keep)[j]]
  {
    forall j | 0 <= j < |KeptIndices(xs, keep)|
      ensures 0 <= KeptIndices(xs, keep)[j] < |xs| && Filter(xs, keep)[j] == xs[KeptIndices(xs, keep)[j]]
    {
      KeptIndexAt(xs, keep, j);
    }
  }

  lemma {:induction false} KeptIndexAt<T>(xs: seq<T>, keep: T -> bool, j: int)
    requires 0 <= j < |KeptIndices(xs, keep)|
    ensures 0 <= KeptIndices(xs, keep)[j] < |xs| && Filter(xs, keep)[j] == xs[KeptIndices(xs, keep)[j]]
  {
    var rest := KeptIndices(xs[1..], keep);
    var tail := Filter(xs[1..], keep);
    var idx := KeptIndices(xs, keep);
    if keep(xs[0]) {
      assert idx == [0] + Shift(rest);
      assert Filter(xs, keep) == [xs[0]] + tail;
      if j > 0 {
        KeptIndexAt(xs[1..], keep, j - 1);
        assert idx[j] == rest[j - 1] + 1;
        assert Filter(xs, keep)[j] == tail[j - 1] == xs[1..][rest[j - 1]];
      }
    } else {
      assert idx == Shift(rest);
      assert Filter(xs, keep) == tail;
      KeptIndexAt(xs[1..], keep, j);
      assert tail[j] == xs[1..][rest[j]];
    }
  }

  lemma {:induction false} KeptIndicesAscending<T>(xs: seq<T>, keep: T -> bool)
    ensures forall j :: 0 <= j < |KeptIndices(xs, keep)| ==> 0 <= KeptIndices(xs, keep)[j]
    ensures forall j, j' :: 0 <= j < j' < |KeptIndices(xs, keep)| ==> KeptIndices(xs, keep)[j] < KeptIndices(xs, keep)[j']
  {
    if xs != [] {
      var rest := KeptIndices(xs[1..], keep);
      KeptIndicesAscending(xs[1..], keep);
      ShiftAscending(rest);
      if keep(xs[0]) {
        PrependAscending(0, Shift(rest));
      }
    }
  }

  lemma ShiftAscending(ps: seq<int>)
    requires forall j :: 0 <= j < |ps| ==> 0 <= ps[j]
    requires forall j, j' :: 0 <= j < j' < |ps| ==> ps[j] < ps[j']
    ensures forall j :: 0 <= j < |Shift(ps)| ==> 1 <= Shift(ps)[j]
    ensures forall j, j' :: 0 <= j < j' < |Shift(ps)| ==> Shift(ps)[j] < Shift(ps)[j']
  {
  }

  lemma PrependAscending(p: int, ps: seq<int>)
    requires forall j :: 0 <= j < |ps| ==> p < ps[j]
    requires forall j, j' :: 0 <= j < j' < |ps| ==> ps[j] < ps[j']
    ensures forall j, j' :: 0 <= j < j' < |[p] + ps| ==> ([p] + ps)[j] < ([p] + ps)[j']
  {
    var r := [p] + ps;
    forall j, j' | 0 <= j < j' < |r|
      ensures r[j] < r[j']
    {
      assert r[j'] == ps[j' - 1];
      if j > 0 {
        assert r[j] == ps[j - 1];
      }
    }
  }

  lemma {:induction false} KeptIndicesExactly<T>(xs: seq<T>, keep: T -> bool)
    ensures forall i :: 0 <= i < |xs| ==> (i in KeptIndices(xs, keep) <==> keep(xs[i]))
  {
    if xs != [] {
      var rest := KeptIndices(xs[1..], keep);
      var shifted := Shift(rest);
      KeptIndicesExactly(xs[1..], keep);
      KeptIndicesAscending(xs[1..], keep);
      forall i | 1 <= i < |xs|
        ensures i in shifted <==> keep(xs[i])
      {
        assert xs[1..][i - 1] == xs[i];
        if i - 1 in rest {
          var j :| 0 <= j < |rest| && rest[j] == i - 1;
          assert shifted[j] == i;
        }
        if i in shifted {
          var j :| 0 <= j < |shifted| && shifted[j] == i;
          assert rest[j] == i - 1;
        }
      }
      assert 0 !in shifted;
    }
  }

  /** The positions Filter keeps: as many as it keeps, strictly ascending,
      each holding the element kept there, and exactly the positions whose
      element satisfies `keep`. */
  lemma FilterPositions<T>(xs: seq<T>, keep: T -> bool) returns (idx: seq<int>)
    ensures |idx| == |Filter(xs, keep)| <= |xs|
    ensures forall j :: 0 <= j < |idx| ==> 0 <= idx[j] < |xs| && Filter(xs, keep)[j] == xs[idx[j]]
    ensures forall j, j' :: 0 <= j < j' < |idx| ==> idx[j] < idx[j']
    ensures forall i :: 0 <= i < |xs| ==> (i in idx <==> keep(xs[i]))
  {
    idx := KeptIndices(xs, keep);
    KeptIndicesSelect(xs, keep);
    KeptIndicesAscending(xs, keep);
    KeptIndicesExactly(xs, keep);
    FilterKeepsAll(xs, keep);
  }

  /** Every kept element comes from the input and satisfies `keep`, and
      every input element that satisfies `keep` is kept. */
  lemma {:induction false} FilterMembers<T>(xs: seq<T>, keep: T -> bool)
    ensures forall j :: 0 <= j < |Filter(xs, keep)| ==> Filter(xs, keep)[j] in xs && keep(Filter(xs, keep)[j])
    ensures forall i :: 0 <= i < |xs| && keep(xs[i]) ==> xs[i] in Filter(xs, keep)
  {
    if xs != [] {
      var tail := Filter(xs[1..], keep);
      FilterMembers(xs[1..], keep);
      assert forall i :: 1 <= i < |xs| ==> xs[i] == xs[1..][i - 1];
      if keep(xs[0]) {
        assert Filter(xs, keep) == [xs[0]] + tail;
      } else {
        assert Filter(xs, keep) == tail;
      }
    }
  }

  /** Filter keeps nothing when no element satisfies `keep`. */
  lemma {:induction false} FilterNone<T>(xs: seq<T>, keep: T -> bool)
    requires forall i :: 0 <= i < |xs| ==> !keep(xs[i])
    ensures Filter(xs, keep) == []
  {
    if xs != [] {
      assert forall i :: 1 <= i < |xs| ==> xs[i] == xs[1..][i - 1];
      FilterNone(xs[1..], keep);
    }
  }

  /** Filter removes nothing exactly when every element is kept. */
  lemma {:induction false} FilterKeepsAll<T>(xs: seq<T>, keep: T -> bool)
    ensures |Filter(xs, keep)| <= |xs|
    ensures |Filter(xs, keep)| == |xs| <==> forall i :: 0 <= i < |xs| ==> keep(xs[i])
    ensures (forall i :: 0 <= i < |xs| ==> keep(xs[i])) ==> Filter(xs, keep) == xs
  {
    if xs != [] {
      FilterKeepsAll(xs[1..], keep);
      assert forall i :: 1 <= i < |xs| ==> xs[i] == xs[1..][i - 1];
    }
  }

  /** A DataFrame object, whose columns the pipeline assigns in place. */
  class Frame {
    var kinds: map<string, Kind>
    var rows: seq<Row>

    function Value(): Table
      reads this
    {
      Table(kinds, rows)
    }

    constructor (t: Table)
      ensures Value() == t
    {
      kinds := t.kinds;
      rows := t.rows;
    }
  }
}

=== FILE: pipeline.dfy ===
/** The two stages together: clean_data on each of the three sources, then
    aggregate_monthly on the cleaned tables. */
module Pipeline {
  import opened Calendar
  import opened Frames
  import opened Cleaning
  import opened Aggregation

  /** The tables clean_data returns for the date columns the aggregation
      indexes on pass all of aggregate_monthly's schema checks, as long as
      every air-quality column other than the timestamp is numeric; the
      aggregation then succeeds exactly when no cleaned table is a non-empty
      one whose dates are all NaT. */
  lemma CleanedTablesAggregate(air: Table, hosp: Table, jp: Table,
                                parseAir: Cell -> Parsed, parseHosp: Cell -> Parsed, parseJp: Cell -> Parsed)
    requires Clean(air, AirIndex, parseAir).Ok?
    requires Clean(hosp, HospIndex, parseHosp).Ok?
    requires Clean(jp, HospIndex, parseJp).Ok?
    requires forall c :: c in air.kinds && c != AirIndex ==> air.kinds[c] == Numeric
    ensures var a, h, j := Clean(air, AirIndex, parseAir).value, Clean(hosp, HospIndex, parseHosp).value,
                           Clean(jp, HospIndex, parseJp).value;
            Aggregate(a, h, j).Ok? <==>
            !AllNaT(a.rows, AirIndex) && !AllNaT(h.rows, HospIndex) && !AllNaT(j.rows, HospIndex)
  {
    var a := Clean(air, AirIndex, parseAir).value;
    assert forall c :: c in AirDataColumns(a.kinds) ==> a.kinds[c] == Numeric;
  }

  /** The air-quality rows of the worked examples. */
  function AirJanuary(): Table {
    Table(map["timestamp" := Datetime, "pm25" := Numeric],
          [map["timestamp" := Stamp(Date(2024, 1, 5)), "pm25" := Num(10.0)],
           map["timestamp" := Stamp(Date(2024, 1, 20)), "pm25" := Missing]])
  }

  /** The air-quality table of the worked example: a pm25 column with one
      reading of 10 and one missing reading. */
  predicate OneReading(t: Table) {
    && WellFormed(t)
    && t.kinds == map[AirIndex := Datetime, "pm25" := Numeric]
    && |t.rows| == 2
    && Get(t.rows[0], "pm25") == Num(10.0)
    && Get(t.rows[1], "pm25") == Missing
  }

  /** The mean of one reading of 10 and one missing reading is 10. */
  lemma OneReadingMean(t: Table)
    requires OneReading(t)
    ensures Mean(Column(t.rows, "pm25")) == Some(10.0)
  {
    var col := Column(t.rows, "pm25");
    assert col == [Num(10.0), Missing];
    assert col[1..] == [Missing] && col[1..][1..] == [];
    assert PresentCount(col[1..]) == 0 && PresentSum(col[1..]) == 0.0;
    assert PresentCount(col) == 1 && PresentSum(col) == 10.0;
  }

  /** Cleaning keeps both rows: the table has no non-numeric column to
      drop on besides its timestamps. */
  lemma OneReadingKept(t: Table, parse: Cell -> Parsed)
    requires OneReading(t)
    ensures Clean(t, AirIndex, parse).Ok?
    ensures |Clean(t, AirIndex, parse).value.rows| == 2
  {
    DatetimeColumnCleans(t, AirIndex, parse);
    assert ObjectColumns(t.kinds, AirIndex) == {};
    CleanDropsNothingIff(t, AirIndex, parse);
  }

  /** Cleaning fills the missing pm25 reading with 10. */
  lemma OneReadingFilled(t: Table, parse: Cell -> Parsed)
    requires OneReading(t)
    requires Clean(t, AirIndex, parse).Ok?
    ensures var rows := Clean(t, AirIndex, parse).value.rows;
            forall j :: 0 <= j < |rows| ==> Get(rows[j], "pm25") == Num(10.0)
  {
    OneReadingMean(t);
    var idx := CleanRows(t, AirIndex, parse);
    var rows := Clean(t, AirIndex, parse).value.rows;
    forall j | 0 <= j < |rows|
      ensures Get(rows[j], "pm25") == Num(10.0)
    {
      var i := idx[j];
      assert i == 0 || i == 1;
      assert Get(t.rows[i], "pm25") == Num(10.0) || Get(t.rows[i], "pm25").Missing?;
      assert RowFits(t.kinds, t.rows[i]);
      assert CleanedRow(t, AirIndex, parse, t.rows[i], rows[j]);
      FilledReading(t, parse, t.rows[i], rows[j]);
    }
  }

  /** A pm25 cell that is 10 or missing comes out as 10 when the column's
      mean is 10. */
  lemma FilledReading(t: Table, parse: Cell -> Parsed, row: Row, out: Row)
    requires "pm25" in t.kinds && t.kinds["pm25"] == Numeric
    requires Mean(Column(t.rows, "pm25")) == Some(10.0)
    requires AirIndex in row && "pm25" in row
    requires row["pm25"] == Num(10.0) || row["pm25"].Missing?
    requires CleanedRow(t, AirIndex, parse, row, out)
    ensures Get(out, "pm25") == Num(10.0)
  {
    assert "pm25" != AirIndex;
  }

  /** The worked example: two January rows, the second missing its pm25
      reading, come out of cleaning with both readings 10. */
  lemma FillExample(parse: Cell -> Parsed)
    ensures Clean(AirJanuary(), AirIndex, parse).Ok?
    ensures var rows := Clean(AirJanuary(), AirIndex, parse).value.rows;
            |rows| == 2 && Get(rows[0], "pm25") == Num(10.0) && Get(rows[1], "pm25") == Num(10.0)
  {
    var t := AirJanuary();
    assert RowFits(t.kinds, t.rows[0]) && RowFits(t.kinds, t.rows[1]);
    OneReadingKept(t, parse);
    OneReadingFilled(t, parse);
  }
}
